=== FILE: README.md ===
# TPC-DS generator core in Dafny

This project models the core of a Java TPC-DS data generator. It covers three parts:

- **The generation session** (`Session`). This is the immutable bundle of run options: scale, target directory, file suffix, optional single table, null string, field separator, row termination, the no-sexism switch, parallelism, chunk number and overwrite. It has copy-with-one-field-changed operations, derived views, a default session and the rendering of the options back into command-line arguments.
- **The table writer** (`TableGenerator`). It covers:
  - where a table's output file goes (`getPath`);
  - how an output file is opened (exists / overwrite / truncate);
  - how a generated row becomes one delimited line (`formatRow`);
  - how each generated result is routed: its parent row goes to the table's file and its child row to the child table's file (`generateTable`).
- **The web-site dimension's row step** (`WebSiteRowGenerator.generateRowAndChildRows`). This is a slowly changing dimension:
  - A row either starts a new business entity or continues the previous one.
  - Each mutable field of a continuation row keeps or replaces its previous value, as decided by one 32-bit field-change mask drawn per row. The mask is shifted right by one place per field, whether or not that field consults it.

The model is made of pure functions over immutable datatypes. These outside effects are parameters:

- the random number streams: their values for one row are a `Draws` record;
- the business-key computation: `computeScdKey`;
- the word generator;
- the keep-or-replace rule `getValueForSlowlyChangingDimension`: a `Chooser` with one function per value type;
- `Table.valueOf`: `resolve`;
- the rendering of a `double`: `showScale`;
- `File.separator`: `fileSep`;
- the rows a table's generator produces: `results`.

The file system is a map from path to contents. Every property is proved for all values of these parameters.

Java's `int` is the subset type `JavaInt.Int32`. Three Java operations are written out explicitly:

- the narrowing cast `(int)` of a `long`;
- `long` division, which truncates toward zero;
- the arithmetic shift `>>= 1`.

Modules:

| file | module | contents |
|---|---|---|
| `wrappers.dfy` | `Wrappers`, `TpcdsErrors` | `Option`, `Result`; the error cases the core raises |
| `javaint.dfy` | `JavaInt` | 32-bit `int`, narrowing cast, truncating division, shifts, bits |
| `text.dfy` | `Text` | `%d` rendering, character counts, join and split |
| `session.dfy` | `Tables`, `Sessions` | table metadata, the session and its command-line rendering |
| `rowformat.dfy` | `RowFormat` | `formatRow` and its inverse |
| `tablegenerator.dfy` | `TableGeneration` | paths, opening files, routing results |
| `website.dfy` | `WebSite` | the web-site row step |

The command-line rendering ends by removing a trailing space (Session.java:272-275). That step deletes only the space appended after the last option; it does not make the result free of a trailing space. When the last option emitted carries a value ending in a space, the output ends in one. Examples: the separator `' '`, a directory or null string with a trailing blank. `Sessions.CommandLineEnd` states what does hold. `Sessions.OnlySeparatorDeparts` exhibits the separator case.

Address fields: the code comments that some address fields always take the freshly drawn value. The model follows the code:

- City, county, state, street type and both street names are shifted past in the mask but never consulted.
- The GMT offset, street number and zip consult mask positions 9, 14 and 15.

## Model

| member | source | states |
|---|---|---|
| JavaInt.ToInt32 | src/main/java/io/trino/tpcds/row/generator/WebSiteRowGenerator.java:100 | the cast `(int)` of a long agrees with it modulo 2^32 and is the identity on values already in int range |
| JavaInt.TruncDiv | src/main/java/io/trino/tpcds/row/generator/WebSiteRowGenerator.java:90 | long division by a positive divisor rounds toward zero: the remainder a - b*q has the dividend's sign and is smaller than the divisor in magnitude |
| JavaInt.Shr1 | src/main/java/io/trino/tpcds/row/generator/WebSiteRowGenerator.java:108 | `flags >>= 1` yields r with 2r <= flags < 2r+2, i.e. rounds toward minus infinity, staying an int |
| JavaInt.ShiftIsFloorDivision | src/main/java/io/trino/tpcds/row/generator/WebSiteRowGenerator.java:108-175 | k successive one-place shifts of the mask equal floor division by 2^k |
| JavaInt.ShiftParityIsBit | src/main/java/io/trino/tpcds/row/generator/WebSiteRowGenerator.java:100-192 | the lowest bit of the mask after k shifts is bit k of the original mask |
| Text.IntToString | src/main/java/io/trino/tpcds/TableGenerator.java:145 | `%d` renders a non-empty string that starts with a minus sign exactly for negative numbers |
| Text.IntToStringInjective | src/main/java/io/trino/tpcds/TableGenerator.java:145-153 | different numbers render differently under `%d` |
| Text.SplitJoin | src/main/java/io/trino/tpcds/TableGenerator.java:177-181 | splitting separator-joined fields that contain no separator gives the fields back |
| Sessions.NewSession | src/main/java/io/trino/tpcds/Session.java:46-64 | the ten-argument constructor keeps every argument and starts at chunk 1 |
| Sessions.ToTableOptional | src/main/java/io/trino/tpcds/Session.java:130-142 | no name gives no table; a name resolves to its table or fails with an invalid-option error naming "table" and the value |
| Sessions.DefaultSession | src/main/java/io/trino/tpcds/Session.java:23-32 | the default session has scale 1, directory ".", suffix ".dat", no table, empty null string, separator the vertical bar, terminated rows, sexist names, parallelism 1, chunk 1, no overwrite |
| Sessions.Session.GetOnlyTableToGenerate | src/main/java/io/trino/tpcds/Session.java:195-201 | succeeds exactly when the run is restricted to one table, returning that table; otherwise fails with "table not present" |
| Sessions.WithTable | src/main/java/io/trino/tpcds/Session.java:66-80 | the copy holds the given table and agrees with the original in every other field |
| Sessions.WithScale | src/main/java/io/trino/tpcds/Session.java:82-96 | the copy holds the given scale and agrees with the original in every other field |
| Sessions.WithParallelism | src/main/java/io/trino/tpcds/Session.java:98-112 | the copy holds the given parallelism and agrees with the original in every other field |
| Sessions.WithChunkNumber | src/main/java/io/trino/tpcds/Session.java:114-128 | the copy holds the given chunk number and agrees with the original in every other field |
| Sessions.WithNoSexism | src/main/java/io/trino/tpcds/Session.java:159-173 | the copy holds the given switch, is sexist exactly when it is off, and agrees with the original in every other field |
| Sessions.WithCopiesAreUpdates | src/main/java/io/trino/tpcds/Session.java:66-128 | copying with a field's own value returns the session; for each of the table, scale, parallelism, chunk-number and no-sexism copies, a second copy overrides the first; chunk and parallelism copies commute |
| Sessions.SessionViews | src/main/java/io/trino/tpcds/Session.java:190-221 | rows are terminated unless do-not-terminate is set; names are sexist unless no-sexism is set; the default session generates all tables; a session with a table returns it |
| Sessions.OptionText | src/main/java/io/trino/tpcds/Session.java:241-270 | a flag option renders as exactly its double-dash name, and a valued option as that name, a space and its value; so every rendering starts with "--" and none is empty |
| Sessions.Emitted | src/main/java/io/trino/tpcds/Session.java:241-270 | the options kept are exactly those among the given ones whose setting departs from the default |
| Sessions.EmittedOptions | src/main/java/io/trino/tpcds/Session.java:241-270 | an option is rendered exactly when its setting departs from the default, in the fixed order scale, directory, suffix, table, null, separator, do-not-terminate, no-sexism, parallelism, overwrite |
| Sessions.CommandLineIsEmittedWords | src/main/java/io/trino/tpcds/Session.java:238-278 | the rendering is the words of the departing options joined by single spaces, or "" when none departs |
| Sessions.CommandLineIgnoresChunk | src/main/java/io/trino/tpcds/Session.java:238-278 | the rendering does not depend on the chunk number |
| Sessions.DefaultCommandLineIsEmpty | src/main/java/io/trino/tpcds/Session.java:238-278 | the default session (getDefaultSession, lines 144-157) renders as the empty string, since none of its options departs from its default |
| Sessions.CommandLineEnd | src/main/java/io/trino/tpcds/Session.java:272-275 | the rendering is empty exactly when no option departs, and otherwise ends with the words of the last option rendered |
| Sessions.OnlySeparatorDeparts | src/main/java/io/trino/tpcds/Session.java:256-258 | a session departing only in its separator renders as "--separator " and that character, so the separator ' ' leaves a trailing space |
| RowFormat.SubstituteNulls | src/main/java/io/trino/tpcds/TableGenerator.java:172-173 | each null becomes the session's null string and every other value is kept, position by position |
| RowFormat.FormatRow | src/main/java/io/trino/tpcds/TableGenerator.java:170-187 | fails on an empty row; otherwise the line starts with the first value, ends in a newline, and has the separator just before it when rows are terminated |
| RowFormat.FormatRowRoundTrip | src/main/java/io/trino/tpcds/TableGenerator.java:170-187 | for a non-empty row none of whose fields, after null substitution, contains the separator: parsing the formatted line (drop the newline, drop the terminating separator if any, split) gives back the values with nulls substituted |
| RowFormat.FormatRowSeparatorCount | src/main/java/io/trino/tpcds/TableGenerator.java:175-184 | for a non-empty row none of whose fields, after null substitution, contains the separator: the line holds one separator between each pair of fields, one more when rows are terminated, and, when the separator is the newline, the final newline as well |
| RowFormat.FormatRowNewlineCount | src/main/java/io/trino/tpcds/TableGenerator.java:185 | when no field, after null substitution, holds a newline and the separator is not the newline, a non-empty row's line contains exactly one newline, its last character |
| RowFormat.FormatRowCount | src/main/java/io/trino/tpcds/TableGenerator.java:175-185 | the number of occurrences of any character absent from the fields, as separator, newline or neither |
| TableGeneration.GetPathPerChunk | src/main/java/io/trino/tpcds/TableGenerator.java:142-162 | in a split run two chunks write the same path exactly when they are the same chunk; an unsplit run ignores the chunk number |
| TableGeneration.GetPathSeparatesTables | src/main/java/io/trino/tpcds/TableGenerator.java:142-162 | two tables whose names hold no file separator get the same path exactly when their names are equal |
| TableGeneration.OpenWriter | src/main/java/io/trino/tpcds/TableGenerator.java:129-138 | opening fails with "file exists" exactly when the file exists and overwrite is off; otherwise the file exists and is empty and no other file changes |
| TableGeneration.WriteResult | src/main/java/io/trino/tpcds/TableGenerator.java:55-61 | one loop iteration never creates or removes a file; it succeeds exactly when its routed rows are non-empty and a child row has a child writer (for distinct parent and child files), and then element 0 is appended to the parent file, element 1 to the child file, and no other file changes |
| TableGeneration.WriteResults | src/main/java/io/trino/tpcds/TableGenerator.java:54-62 | writing the results never creates or removes a file |
| TableGeneration.WriteResultsRouting | src/main/java/io/trino/tpcds/TableGenerator.java:54-62 | the loop succeeds exactly when every result is writable; then the parent file gains the lines of all element-0 rows and the child file those of all element-1 rows, in order, and no other file changes |
| TableGeneration.GenerateTable | src/main/java/io/trino/tpcds/TableGenerator.java:42-52 | a child table is skipped, touching no file, unless it is the only table generated; without overwrite an existing parent file stops the run before any change, and an existing child file stops it after the parent file was emptied |
| TableGeneration.GenerateTableRouting | src/main/java/io/trino/tpcds/TableGenerator.java:42-67 | with the files openable, the run succeeds exactly when every result is writable under the child-writer rule, and the parent and child files then hold exactly the formatted element-0 and element-1 rows |
| WebSite.ChangeFields | src/main/java/io/trino/tpcds/row/generator/WebSiteRowGenerator.java:100-192 | with no previous row every mutable field takes its candidate, and the company name is the word for the drawn company id |
| WebSite.GenerateRow | src/main/java/io/trino/tpcds/row/generator/WebSiteRowGenerator.java:69-215 | fails exactly on a continuation row with no previous row; otherwise emits one row that becomes the previous row, carrying the row number, the key's business id and dates and class "Unknown"; a continuation row keeps open date, close date and name; a new entity gets a fresh open date, its site name, and the drawn close date, or exactly -1 when that date is later than its record's end date; the address is the fresh one except street number, zip and GMT offset |
| WebSite.MaskSlots | src/main/java/io/trino/tpcds/row/generator/WebSiteRowGenerator.java:100-192 | each mutable field is decided at the mask shifted by its slot (manager 0, market id 1, class 2, description 3, market manager 4, company id 5, company name 6, GMT offset 9, street number 14, zip 15, tax 16); the company name's candidate is the word for the final company id |
| WebSite.ChangeFieldsReadConsultedFlags | src/main/java/io/trino/tpcds/row/generator/WebSiteRowGenerator.java:100-192 | the field-change walk gives the same result under two choosers that agree at the consulted mask values |
| WebSite.OnlyConsultedFlagsMatter | src/main/java/io/trino/tpcds/row/generator/WebSiteRowGenerator.java:150-163 | the row step gives the same outcome under two choosers that agree at the consulted mask values: the shifts for city, county, state, street type and street names decide nothing |
| WebSite.ChangeFieldsReadConsultedBits | src/main/java/io/trino/tpcds/row/generator/WebSiteRowGenerator.java:100-192 | under a chooser reading only the mask's lowest bit, two masks agreeing on the consulted bits give the same mutable fields |
| WebSite.OnlyConsultedBitsMatter | src/main/java/io/trino/tpcds/row/generator/WebSiteRowGenerator.java:150-163 | under a chooser reading only the mask's lowest bit, two change draws agreeing on bits 0-6, 9 and 14-16 give the same outcome |
| WebSite.SiteName | src/main/java/io/trino/tpcds/row/generator/WebSiteRowGenerator.java:90 | below 6 * 2^31 the name of a new entity is "site_" followed by the row number divided by six; from there to 6 * 2^32 the narrowing cast wraps and the name carries a minus sign |
| WebSite.SiteNamesDistinguishGroups | src/main/java/io/trino/tpcds/row/generator/WebSiteRowGenerator.java:90 | row numbers below 6 * 2^31 in different groups of six give different names |

## Left out

- `Driver` and `SparkDriver`: the command-line parsing, the thread pool and the Spark job are outside this core.
- Scaling: row counts per table and scale are not modelled. `results` stands for whatever `Results.constructResults` yields.
- The rendering of the `double` scale (`Double.toString`) is the parameter `showScale`. The model keeps only the comparison with the default 1.
- The random number streams and the distributions behind names, texts, addresses and decimals are left out. Their values for one row are the `Draws` parameter. Because the draws are given and not consumed, the model says nothing about stream positions. In particular it does not model that the open- and close-date join keys are drawn only for new business keys.
- `computeScdKey`, `generateWord` and `getValueForSlowlyChangingDimension` are parameters. Their implementations are not part of this model.
- `Decimal` arithmetic: a decimal is an opaque number-and-precision pair.
- The HDFS branch of `addFileWriterForTable` (TableGenerator.java:73-121): its Hadoop configuration, `HADOOP_CONF_DIR` checks, parent-directory check and directory creation are file-system plumbing; its exists / overwrite / truncate decision is the same as the local branch's and is modelled by `TableGeneration.OpenWriter`.
- Local directory creation and I/O errors (`IOException` wrapped in `TpcdsException`) are left out. The file map cannot fail.
- Java `null` strings in rows are `Option.None`. Table names in `resolve` are whatever `Table.valueOf` accepts after upper-casing.
- `String.format` locale effects on `%d` are left out. Digits are ASCII and there is no grouping.
- `TableGeneration.GetPath`, `TableGeneration.FileName`, `TableGeneration.Append` (the `writeResults` of TableGenerator.java:164-168, whose effect `TableGeneration.WriteResult` states) and `Sessions.CommandLineArguments` carry their properties in the contracts and lemmas listed above rather than in their own contracts.
- Character encoding: `writeResults` (TableGenerator.java:167) writes `formatRow(...).getBytes()` in the platform's default charset, where unmappable characters become `?`. Files are modelled as strings of Dafny `char`, a Unicode scalar value, not Java's UTF-16 code unit. So `TableGeneration.GenerateTableRouting` and `TableGeneration.WriteResultsRouting` state the strings handed to the writer, not the bytes that reach the disk.

=== FILE: javaint.dfy ===
/** Java's 32-bit int arithmetic, written out over unbounded integers: the
    narrowing cast from long, long division (truncating toward zero) and the
    arithmetic right shift. */
module JavaInt {

  const INT_MIN: int := -0x8000_0000
  const INT_MAX: int := 0x7fff_ffff

  /** A value of Java's int type. */
  type Int32 = x: int | INT_MIN <= x <= INT_MAX

  function Pow2(k: nat): (r: nat)
    ensures r >= 1
  {
    if k == 0 then 1 else 2 * Pow2(k - 1)
  }

  /** The narrowing cast (int) applied to a long: keep the low 32 bits and read
      them in two's complement. */
  function ToInt32(x: int): (r: Int32)
    ensures (r - x) % 0x1_0000_0000 == 0
    ensures INT_MIN <= x <= INT_MAX ==> r == x
  {
    var m := x % 0x1_0000_0000;
    if m <= INT_MAX then m else m - 0x1_0000_0000
  }

  /** Java's integer division for a positive divisor: the quotient is
      truncated toward zero, unlike Dafny's Euclidean division. */
  function TruncDiv(a: int, b: int): (q: int)
    requires b > 0
    // the quotient rounds toward zero (section 15.17.2 of the Java Language
    // Specification): the remainder a - b * q takes the sign of the dividend
    // and is smaller than the divisor in magnitude
    ensures a >= 0 ==> 0 <= a - b * q < b
    ensures a < 0 ==> -b < a - b * q <= 0
  {
    if a >= 0 then a / b else -((-a) / b)
  }

  /** One step of Java's x >>= 1 on an int. The shift is arithmetic: the sign
      bit is copied in, so the result is the floor of x / 2. Dafny's division
      by a positive divisor is already the floor. */
  function Shr1(x: Int32): (r: Int32)
    ensures 2 * r <= x < 2 * r + 2
  {
    x / 2
  }

  /** The value x >> k, written as k single-bit shifts in a row, which is how
      the generator advances its field-change mask. */
  function Shift(x: Int32, k: nat): Int32
  {
    if k == 0 then x else Shr1(Shift(x, k - 1))
  }

  /** A multiple of d by a factor of at least one is at least d. */
  lemma MulAtLeast(d: int, n: int)
    requires d > 0 && n >= 1
    ensures d * n >= d
  {
    assert d * n == d * (n - 1) + d;
    assert d * (n - 1) >= 0;
  }

  /** Division by d has a unique quotient and remainder. */
  lemma DivUnique(x: int, d: int, q: int, r: int)
    requires d > 0 && x == d * q + r && 0 <= r < d
    ensures x / d == q
  {
    var q' := x / d;
    var r' := x % d;
    assert x == d * q' + r' && 0 <= r' < d;
    assert d * q - d * q' == d * (q - q');
    if q > q' {
      MulAtLeast(d, q - q');
    } else if q < q' {
      assert d * q' - d * q == d * (q' - q);
      MulAtLeast(d, q' - q);
    }
  }

  /** Halving a floor quotient is the floor quotient by twice the divisor. */
  lemma HalveQuotient(x: int, p: int)
    requires p > 0
    ensures (x / p) / 2 == x / (2 * p)
  {
    var q := x / p;
    var r := x % p;
    assert x == p * q + r && 0 <= r < p;
    var a := q / 2;
    var b := q % 2;
    assert q == 2 * a + b && (b == 0 || b == 1);
    assert p * q == (2 * p) * a + p * b;
    assert 0 <= p * b <= p;
    DivUnique(x, 2 * p, a, p * b + r);
  }

  /** k successive one-bit shifts equal one division by 2^k rounded toward
      minus infinity, i.e. Java's x >> k for 0 <= k < 32. */
  lemma {:induction false} ShiftIsFloorDivision(x: Int32, k: nat)
    ensures Shift(x, k) == x / Pow2(k)
  {
    if k > 0 {
      ShiftIsFloorDivision(x, k - 1);
      HalveQuotient(x, Pow2(k - 1));
    }
  }

  /** Bit k of x in two's complement, read as 0 or 1. */
  function Bit(x: int, k: nat): int
  {
    (x / Pow2(k)) % 2
  }

  /** The lowest bit of x >> k is bit k of x. */
  lemma ShiftParityIsBit(x: Int32, k: nat)
    ensures Shift(x, k) % 2 == Bit(x, k)
  {
    ShiftIsFloorDivision(x, k);
  }
}

=== FILE: rowformat.dfy ===
/** Row serialisation (TableGenerator.formatRow): null substitution, the
    separator-joined fields, the optional trailing separator and the newline;
    with the parser that inverts it. */
module RowFormat {
  import opened Wrappers
  import opened TpcdsErrors
  import opened Text
  import opened Sessions

  /** Every null value (None) replaced by the session's null string. */
  function SubstituteNulls(values: seq<Option<string>>, nullString: string): (r: seq<string>)
    ensures |r| == |values|
    ensures forall i :: 0 <= i < |values| ==>
              r[i] == (if values[i].None? then nullString else values[i].value)
  {
    if |values| == 0 then []
    else [values[0].GetOr(nullString)] + SubstituteNulls(values[1..], nullString)
  }

  /** One output line for a row. The first value is read unconditionally, so
      an empty row fails. */
  function FormatRow(values: seq<Option<string>>, s: Session): (r: Result<string, Error>)
    ensures r.Failure? <==> |values| == 0
    ensures r.Failure? ==> r.error == RowIndexOutOfBounds
    ensures r.Success? ==> |r.value| >= 1 && r.value[|r.value| - 1] == '\n'
    ensures r.Success? && s.TerminateRowsWithSeparator() ==>
              |r.value| >= 2 && r.value[|r.value| - 2] == s.separator
    ensures r.Success? ==> SubstituteNulls(values, s.nullString)[0] <= r.value
  {
    var fields := SubstituteNulls(values, s.nullString);
    if |fields| == 0 then Failure(RowIndexOutOfBounds)
    else
      var line := Join(fields, s.separator) + (if s.TerminateRowsWithSeparator() then [s.separator] else []);
      Success(line + "\n")
  }

  /** Reads a line back: drops one final newline, then one final separator
      when rows are terminated with it, and splits the rest on the separator. */
  function ParseRow(line: string, separator: char, terminated: bool): (fields: seq<string>)
    ensures |fields| >= 1
  {
    var body := if |line| > 0 && line[|line| - 1] == '\n' then line[..|line| - 1] else line;
    var text := if terminated && |body| > 0 && body[|body| - 1] == separator then body[..|body| - 1] else body;
    Split(text, separator)
  }

  /** ParseRow strips exactly what FormatRow appends after the fields. */
  lemma ParseRowStripsEnding(joined: string, separator: char, terminated: bool)
    ensures ParseRow(joined + (if terminated then [separator] else []) + "\n", separator, terminated)
            == Split(joined, separator)
  {
    var line := joined + (if terminated then [separator] else []);
    var full := line + "\n";
    assert full[|full| - 1] == '\n';
    var body := full[..|full| - 1];
    assert body == line;
    var text := if terminated && |body| > 0 && body[|body| - 1] == separator then body[..|body| - 1] else body;
    if terminated {
      assert body[|body| - 1] == separator;
      assert text == joined;
    } else {
      assert text == joined;
    }
    assert ParseRow(full, separator, terminated) == Split(text, separator);
  }

  /** Parsing a formatted row gives back its fields (nulls already replaced)
      whenever no field contains the separator. */
  lemma FormatRowRoundTrip(values: seq<Option<string>>, s: Session)
    requires |values| > 0
    requires forall i :: 0 <= i < |values| ==> s.separator !in SubstituteNulls(values, s.nullString)[i]
    ensures FormatRow(values, s).Success?
    ensures ParseRow(FormatRow(values, s).value, s.separator, s.TerminateRowsWithSeparator())
            == SubstituteNulls(values, s.nullString)
  {
    var fields := SubstituteNulls(values, s.nullString);
    var joined := Join(fields, s.separator);
    ParseRowStripsEnding(joined, s.separator, s.TerminateRowsWithSeparator());
    SplitJoin(fields, s.separator);
  }

  /** A row of n fields none of which contains the separator carries n - 1
      separators between fields and one more exactly when rows are
      terminated (and the newline itself, should the separator be one). */
  lemma FormatRowSeparatorCount(values: seq<Option<string>>, s: Session)
    requires |values| > 0
    requires forall i :: 0 <= i < |values| ==> s.separator !in SubstituteNulls(values, s.nullString)[i]
    ensures FormatRow(values, s).Success?
    ensures Count(FormatRow(values, s).value, s.separator)
            == |values| - 1 + (if s.TerminateRowsWithSeparator() then 1 else 0)
               + (if s.separator == '\n' then 1 else 0)
  {
    FormatRowCount(values, s, s.separator);
  }

  /** When no field contains a newline and the separator is not one, the
      line holds exactly one newline: its last character. */
  lemma FormatRowNewlineCount(values: seq<Option<string>>, s: Session)
    requires |values| > 0
    requires s.separator != '\n'
    requires forall i :: 0 <= i < |values| ==> '\n' !in SubstituteNulls(values, s.nullString)[i]
    ensures FormatRow(values, s).Success?
    ensures Count(FormatRow(values, s).value, '\n') == 1
  {
    FormatRowCount(values, s, '\n');
  }

  lemma FormatRowCount(values: seq<Option<string>>, s: Session, c: char)
    requires |values| > 0
    requires forall i :: 0 <= i < |values| ==> c !in SubstituteNulls(values, s.nullString)[i]
    ensures FormatRow(values, s).Success?
    ensures Count(FormatRow(values, s).value, c)
            == (if c == s.separator then |values| - 1 else 0)
               + (if c == s.separator && s.TerminateRowsWithSeparator() then 1 else 0)
               + (if c == '\n' then 1 else 0)
  {
    var fields := SubstituteNulls(values, s.nullString);
    var joined := Join(fields, s.separator);
    var term: string := if s.TerminateRowsWithSeparator() then [s.separator] else [];
    assert FormatRow(values, s).value == joined + term + "\n";
    CountJoin(fields, s.separator, c);
    CountAppend(joined + term, "\n", c);
    CountAppend(joined, term, c);
    assert Count("\n", c) == (if c == '\n' then 1 else 0) by {
      assert "\n"[1..] == [];
    }
    assert Count(term, c) == (if c == s.separator && s.TerminateRowsWithSeparator() then 1 else 0) by {
      if s.TerminateRowsWithSeparator() {
        assert term[1..] == [];
      }
    }
  }
}

=== FILE: session.dfy ===
/** The tables the generator knows, reduced to the metadata the core reads. */
module Tables {
  import opened Wrappers

  /** A table of the benchmark: its name, whether it is a child table (one
      whose rows its parent emits), and the child table it has, if any. The
      full enumeration and its column metadata are not part of this model. */
  datatype Table = Table(name: string, isChild: bool, child: Option<Table>) {
    predicate HasChild() {
      child.Some?
    }
  }
}

/** The immutable run configuration (Session.java): defaults, copies with one
    field changed, derived views and the canonical command-line rendering. */
module Sessions {
  import opened Wrappers
  import opened TpcdsErrors
  import opened JavaInt
  import opened Text
  import opened Tables

  const DEFAULT_SCALE: int := 1
  const DEFAULT_DIRECTORY: string := "."
  const DEFAULT_SUFFIX: string := ".dat"
  /** Java's null table name. */
  const DEFAULT_TABLE: Option<string> := None
  const DEFAULT_NULL_STRING: string := ""
  const DEFAULT_SEPARATOR: char := '|'
  const DEFAULT_DO_NOT_TERMINATE: bool := false
  const DEFAULT_NO_SEXISM: bool := false
  const DEFAULT_PARALLELISM: Int32 := 1
  const DEFAULT_OVERWRITE: bool := false

  /** A run configuration. The constructor plays the eleven-argument Java
      constructor. The scale is the value Scaling.getScale() returns for the
      Scaling built from the constructor's argument; the Scaling model itself
      is not part of this model. */
  datatype Session = Session(
    scale: real,
    targetDirectory: string,
    suffix: string,
    table: Option<Table>,
    nullString: string,
    separator: char,
    doNotTerminate: bool,
    noSexism: bool,
    parallelism: Int32,
    chunkNumber: Int32,
    overwrite: bool)
  {
    predicate GenerateOnlyOneTable() {
      table.Some?
    }

    predicate TerminateRowsWithSeparator() {
      !doNotTerminate
    }

    predicate IsSexist() {
      !noSexism
    }

    /** The single table the run is restricted to; fails when there is none. */
    function GetOnlyTableToGenerate(): (r: Result<Table, Error>)
      ensures r.Success? <==> GenerateOnlyOneTable()
      ensures r.Success? ==> table == Some(r.value)
      ensures r.Failure? ==> r.error == TableNotPresent
    {
      if table.None? then Failure(TableNotPresent) else Success(table.value)
    }
  }

  /** The ten-argument constructor, which starts at the first chunk. */
  function NewSession(scale: real, targetDirectory: string, suffix: string, table: Option<Table>,
                      nullString: string, separator: char, doNotTerminate: bool, noSexism: bool,
                      parallelism: Int32, overwrite: bool): (r: Session)
    ensures r.chunkNumber == 1
    ensures r.scale == scale && r.targetDirectory == targetDirectory && r.suffix == suffix
    ensures r.table == table && r.nullString == nullString && r.separator == separator
    ensures r.doNotTerminate == doNotTerminate && r.noSexism == noSexism
    ensures r.parallelism == parallelism && r.overwrite == overwrite
  {
    Session(scale, targetDirectory, suffix, table, nullString, separator, doNotTerminate, noSexism,
            parallelism, 1, overwrite)
  }

  /** The table named by a command-line value. `resolve` is Table.valueOf
      applied to the upper-cased name (None where valueOf throws); it is not
      consulted when no name is given. */
  function ToTableOptional(name: Option<string>, resolve: string -> Option<Table>): (r: Result<Option<Table>, Error>)
    ensures r.Success? && r.value.None? <==> name.None?
    ensures r.Success? && r.value.Some? <==> name.Some? && resolve(name.value).Some?
    ensures r.Success? && name.Some? ==> r.value == resolve(name.value)
    ensures r.Failure? ==> name.Some? && r.error == InvalidOption("table", name.value)
  {
    match name
    case None => Success(None)
    case Some(n) =>
      match resolve(n)
      case None => Failure(InvalidOption("table", n))
      case Some(t) => Success(Some(t))
  }

  /** The session every option left at its default produces. */
  function DefaultSession(): (r: Session)
    ensures r.scale == 1.0 && r.targetDirectory == "." && r.suffix == ".dat"
    ensures r.table == None && r.nullString == "" && r.separator == '|'
    ensures r.TerminateRowsWithSeparator() && r.IsSexist()
    ensures r.parallelism == 1 && r.chunkNumber == 1 && !r.overwrite
  {
    var table := ToTableOptional(DEFAULT_TABLE, _ => None);
    NewSession(DEFAULT_SCALE as real, DEFAULT_DIRECTORY, DEFAULT_SUFFIX, table.value, DEFAULT_NULL_STRING,
               DEFAULT_SEPARATOR, DEFAULT_DO_NOT_TERMINATE, DEFAULT_NO_SEXISM, DEFAULT_PARALLELISM,
               DEFAULT_OVERWRITE)
  }

  // ---------------------------------------------------------------------
  // Copies with one field changed

  datatype Field = ScaleField | DirectoryField | SuffixField | TableField | NullStringField
                 | SeparatorField | DoNotTerminateField | NoSexismField | ParallelismField
                 | ChunkNumberField | OverwriteField

  /** s and t hold the same value in every field other than f. */
  predicate AgreeExcept(s: Session, t: Session, f: Field) {
    && (f != ScaleField ==> s.scale == t.scale)
    && (f != DirectoryField ==> s.targetDirectory == t.targetDirectory)
    && (f != SuffixField ==> s.suffix == t.suffix)
    && (f != TableField ==> s.table == t.table)
    && (f != NullStringField ==> s.nullString == t.nullString)
    && (f != SeparatorField ==> s.separator == t.separator)
    && (f != DoNotTerminateField ==> s.doNotTerminate == t.doNotTerminate)
    && (f != NoSexismField ==> s.noSexism == t.noSexism)
    && (f != ParallelismField ==> s.parallelism == t.parallelism)
    && (f != ChunkNumberField ==> s.chunkNumber == t.chunkNumber)
    && (f != OverwriteField ==> s.overwrite == t.overwrite)
  }

  function WithTable(s: Session, table: Table): (r: Session)
    ensures r.table == Some(table) && AgreeExcept(s, r, TableField)
  {
    Session(s.scale, s.targetDirectory, s.suffix, Some(table), s.nullString, s.separator,
            s.doNotTerminate, s.noSexism, s.parallelism, s.chunkNumber, s.overwrite)
  }

  function WithScale(s: Session, scale: real): (r: Session)
    ensures r.scale == scale && AgreeExcept(s, r, ScaleField)
  {
    Session(scale, s.targetDirectory, s.suffix, s.table, s.nullString, s.separator,
            s.doNotTerminate, s.noSexism, s.parallelism, s.chunkNumber, s.overwrite)
  }

  function WithParallelism(s: Session, parallelism: Int32): (r: Session)
    ensures r.parallelism == parallelism && AgreeExcept(s, r, ParallelismField)
  {
    Session(s.scale, s.targetDirectory, s.suffix, s.table, s.nullString, s.separator,
            s.doNotTerminate, s.noSexism, parallelism, s.chunkNumber, s.overwrite)
  }

  function WithChunkNumber(s: Session, chunkNumber: Int32): (r: Session)
    ensures r.chunkNumber == chunkNumber && AgreeExcept(s, r, ChunkNumberField)
  {
    Session(s.scale, s.targetDirectory, s.suffix, s.table, s.nullString, s.separator,
            s.doNotTerminate, s.noSexism, s.parallelism, chunkNumber, s.overwrite)
  }

  function WithNoSexism(s: Session, noSexism: bool): (r: Session)
    ensures r.noSexism == noSexism && r.IsSexist() == !noSexism && AgreeExcept(s, r, NoSexismField)
  {
    Session(s.scale, s.targetDirectory, s.suffix, s.table, s.nullString, s.separator,
            s.doNotTerminate, noSexism, s.parallelism, s.chunkNumber, s.overwrite)
  }

  /** Copying a session with a field's own value gives the session back, a
      second copy of the same field overrides the first, and copies of
      different fields commute. */
  lemma WithCopiesAreUpdates(s: Session, t1: Table, t2: Table, x1: real, x2: real,
                             p1: Int32, p2: Int32, c1: Int32, c2: Int32, n1: bool, n2: bool)
    ensures WithScale(s, s.scale) == s && WithParallelism(s, s.parallelism) == s
    ensures WithChunkNumber(s, s.chunkNumber) == s && WithNoSexism(s, s.noSexism) == s
    ensures s.table.Some? ==> WithTable(s, s.table.value) == s
    ensures WithTable(WithTable(s, t1), t2) == WithTable(s, t2)
    ensures WithScale(WithScale(s, x1), x2) == WithScale(s, x2)
    ensures WithParallelism(WithParallelism(s, p1), p2) == WithParallelism(s, p2)
    ensures WithChunkNumber(WithChunkNumber(s, c1), c2) == WithChunkNumber(s, c2)
    ensures WithNoSexism(WithNoSexism(s, n1), n2) == WithNoSexism(s, n2)
    ensures WithChunkNumber(WithParallelism(s, p1), c1) == WithParallelism(WithChunkNumber(s, c1), p1)
  {
  }

  /** The derived views of the default session and of a copy. */
  lemma SessionViews(s: Session, table: Table)
    ensures s.TerminateRowsWithSeparator() <==> !s.doNotTerminate
    ensures s.IsSexist() <==> !s.noSexism
    ensures !DefaultSession().GenerateOnlyOneTable()
    ensures DefaultSession().GetOnlyTableToGenerate() == Failure(TableNotPresent)
    ensures WithTable(s, table).GetOnlyTableToGenerate() == Success(table)
  {
  }

  // ---------------------------------------------------------------------
  // Command-line rendering

  /** The options getCommandLineArguments may emit, in the order it emits
      them. There is no option for the chunk number. */
  datatype OptionKind = ScaleOption | DirectoryOption | SuffixOption | TableOption | NullOption
                      | SeparatorOption | DoNotTerminateOption | NoSexismOption | ParallelismOption
                      | OverwriteOption

  const OPTION_ORDER: seq<OptionKind> :=
    [ScaleOption, DirectoryOption, SuffixOption, TableOption, NullOption, SeparatorOption,
     DoNotTerminateOption, NoSexismOption, ParallelismOption, OverwriteOption]

  function Rank(k: OptionKind): nat {
    match k
    case ScaleOption => 0
    case DirectoryOption => 1
    case SuffixOption => 2
    case TableOption => 3
    case NullOption => 4
    case SeparatorOption => 5
    case DoNotTerminateOption => 6
    case NoSexismOption => 7
    case ParallelismOption => 8
    case OverwriteOption => 9
  }

  /** Whether the session's setting for option k differs from the default. */
  predicate Departs(s: Session, k: OptionKind) {
    match k
    case ScaleOption => s.scale != DEFAULT_SCALE as real
    case DirectoryOption => s.targetDirectory != DEFAULT_DIRECTORY
    case SuffixOption => s.suffix != DEFAULT_SUFFIX
    case TableOption => s.table.Some?
    case NullOption => s.nullString != DEFAULT_NULL_STRING
    case SeparatorOption => s.separator != DEFAULT_SEPARATOR
    case DoNotTerminateOption => s.doNotTerminate != DEFAULT_DO_NOT_TERMINATE
    case NoSexismOption => s.noSexism != DEFAULT_NO_SEXISM
    case ParallelismOption => s.parallelism != DEFAULT_PARALLELISM
    case OverwriteOption => s.overwrite != DEFAULT_OVERWRITE
  }

  /** The double-dash name of option k on the command line. */
  function Flag(k: OptionKind): string {
    match k
    case ScaleOption => "--scale"
    case DirectoryOption => "--directory"
    case SuffixOption => "--suffix"
    case TableOption => "--table"
    case NullOption => "--null"
    case SeparatorOption => "--separator"
    case DoNotTerminateOption => "--do-not-terminate"
    case NoSexismOption => "--no-sexism"
    case ParallelismOption => "--parallelism"
    case OverwriteOption => "--overwrite"
  }

  /** The options written as a bare name, without a value. */
  predicate IsSwitch(k: OptionKind) {
    k == DoNotTerminateOption || k == NoSexismOption || k == OverwriteOption
  }

  /** The words option k contributes, without a separating space. showScale
      is Java's rendering of the double scale. */
  function OptionText(s: Session, k: OptionKind, showScale: real -> string): (r: string)
    // a switch is its bare name; any other option is its name, a space and a value
    ensures IsSwitch(k) ==> r == Flag(k)
    ensures !IsSwitch(k) ==> Flag(k) + " " <= r
    // so every option's words start with a double dash
    ensures |r| > 2 && r[..2] == "--"
  {
    match k
    case ScaleOption => "--scale " + showScale(s.scale)
    case DirectoryOption => "--directory " + s.targetDirectory
    case SuffixOption => "--suffix " + s.suffix
    case TableOption => "--table " + (if s.table.Some? then s.table.value.name else "")
    case NullOption => "--null " + s.nullString
    case SeparatorOption => "--separator " + [s.separator]
    case DoNotTerminateOption => "--do-not-terminate"
    case NoSexismOption => "--no-sexism"
    case ParallelismOption => "--parallelism " + IntToString(s.parallelism)
    case OverwriteOption => "--overwrite"
  }

  /** The options among ks whose setting departs from the default, in the
      order of ks. */
  function Emitted(s: Session, ks: seq<OptionKind>): (r: seq<OptionKind>)
    ensures forall k :: k in r <==> k in ks && Departs(s, k)
  {
    if |ks| == 0 then []
    else (if Departs(s, ks[0]) then [ks[0]] else []) + Emitted(s, ks[1..])
  }

  function Texts(s: Session, ks: seq<OptionKind>, showScale: real -> string): (r: seq<string>)
    ensures |r| == |ks|
    ensures forall i :: 0 <= i < |ks| ==> r[i] == OptionText(s, ks[i], showScale)
  {
    if |ks| == 0 then [] else [OptionText(s, ks[0], showScale)] + Texts(s, ks[1..], showScale)
  }

  /** Words joined by single spaces; no words give the empty string. */
  function Words(ws: seq<string>): string {
    if |ws| == 0 then "" else Join(ws, ' ')
  }

  /** Java's `if (setting differs) output.append(words).append(" ")` for
      option k. */
  function Piece(s: Session, k: OptionKind, showScale: real -> string): string {
    if Departs(s, k) then OptionText(s, k, showScale) + " " else ""
  }

  /** The buffer after the appends for the options ks, in order. */
  function Appended(s: Session, ks: seq<OptionKind>, showScale: real -> string): string {
    if |ks| == 0 then "" else Piece(s, ks[0], showScale) + Appended(s, ks[1..], showScale)
  }

  /** getCommandLineArguments: each option that departs from its default is
      appended with a trailing space, in fixed order, and the final space is
      then removed. */
  function CommandLineArguments(s: Session, showScale: real -> string): string {
    var output := Appended(s, OPTION_ORDER, showScale);
    if |output| > 0 then output[..|output| - 1] else output
  }

  // ---------------------------------------------------------------------
  // Properties of the command-line rendering

  /** Every word followed by one space. */
  function Spaced(ws: seq<string>): string {
    if |ws| == 0 then "" else ws[0] + " " + Spaced(ws[1..])
  }

  lemma {:induction false} AppendedIsSpacedEmitted(s: Session, ks: seq<OptionKind>, showScale: real -> string)
    ensures Appended(s, ks, showScale) == Spaced(Texts(s, Emitted(s, ks), showScale))
  {
    if |ks| > 0 {
      AppendedIsSpacedEmitted(s, ks[1..], showScale);
      var rest := Emitted(s, ks[1..]);
      if Departs(s, ks[0]) {
        assert Emitted(s, ks) == [ks[0]] + rest;
        assert Texts(s, [ks[0]] + rest, showScale)[1..] == Texts(s, rest, showScale);
      } else {
        assert Emitted(s, ks) == rest;
      }
    }
  }

  lemma {:induction false} SpacedIsJoinAndSpace(ws: seq<string>)
    requires |ws| > 0
    ensures Spaced(ws) == Join(ws, ' ') + " "
  {
    if |ws| > 1 {
      SpacedIsJoinAndSpace(ws[1..]);
    }
  }

  /** getCommandLineArguments is the words of the options that depart from
      their defaults, in fixed order, separated by single spaces. */
  lemma CommandLineIsEmittedWords(s: Session, showScale: real -> string)
    ensures CommandLineArguments(s, showScale) == Words(Texts(s, Emitted(s, OPTION_ORDER), showScale))
  {
    AppendedIsSpacedEmitted(s, OPTION_ORDER, showScale);
    var ws := Texts(s, Emitted(s, OPTION_ORDER), showScale);
    if |ws| > 0 {
      SpacedIsJoinAndSpace(ws);
      var j := Join(ws, ' ');
      assert (j + " ")[..|j + " "| - 1] == j;
    }
  }

  /** Options appear in their fixed relative order. */
  predicate Ranked(ks: seq<OptionKind>) {
    forall i, j :: 0 <= i < j < |ks| ==> Rank(ks[i]) < Rank(ks[j])
  }

  lemma {:induction false} EmittedKeepsOrder(s: Session, ks: seq<OptionKind>)
    requires Ranked(ks)
    ensures Ranked(Emitted(s, ks))
  {
    if |ks| > 0 {
      assert Ranked(ks[1..]);
      EmittedKeepsOrder(s, ks[1..]);
      var rest := Emitted(s, ks[1..]);
      forall k | k in rest
        ensures Rank(ks[0]) < Rank(k)
      {
        var j :| 0 <= j < |ks[1..]| && ks[1..][j] == k;
        assert ks[j + 1] == k;
      }
    }
  }

  /** The options emitted are exactly those that depart from their defaults,
      and they keep the fixed order scale, directory, suffix, table, null,
      separator, do-not-terminate, no-sexism, parallelism, overwrite. */
  lemma EmittedOptions(s: Session)
    ensures forall k :: k in Emitted(s, OPTION_ORDER) <==> Departs(s, k)
    ensures Ranked(Emitted(s, OPTION_ORDER))
  {
    forall k
      ensures k in OPTION_ORDER
    {
      assert OPTION_ORDER[Rank(k)] == k;
    }
    EmittedKeepsOrder(s, OPTION_ORDER);
  }

  lemma {:induction false} AppendedIgnoresChunk(s: Session, c: Int32, ks: seq<OptionKind>, showScale: real -> string)
    ensures Appended(WithChunkNumber(s, c), ks, showScale) == Appended(s, ks, showScale)
  {
    if |ks| > 0 {
      AppendedIgnoresChunk(s, c, ks[1..], showScale);
      var t := WithChunkNumber(s, c);
      assert Departs(t, ks[0]) == Departs(s, ks[0]);
      assert OptionText(t, ks[0], showScale) == OptionText(s, ks[0], showScale);
    }
  }

  /** The rendering never depends on the chunk number. */
  lemma CommandLineIgnoresChunk(s: Session, c: Int32, showScale: real -> string)
    ensures CommandLineArguments(WithChunkNumber(s, c), showScale) == CommandLineArguments(s, showScale)
  {
    AppendedIgnoresChunk(s, c, OPTION_ORDER, showScale);
  }

  /** The default session renders as the empty string. */
  lemma DefaultCommandLineIsEmpty(showScale: real -> string)
    ensures CommandLineArguments(DefaultSession(), showScale) == ""
  {
    var d := DefaultSession();
    EmittedOptions(d);
    CommandLineIsEmittedWords(d, showScale);
  }

  /** The rendering is empty exactly when no option departs from its default,
      and otherwise ends with the words of the last option emitted. Hence it
      ends in a space only when that option's words do: the flag options never
      do, but a value ending in a space (a directory, a suffix, a null string,
      a table name, a rendered scale, or the separator ' ') is copied as is. */
  lemma CommandLineEnd(s: Session, showScale: real -> string)
    ensures var ks := Emitted(s, OPTION_ORDER);
            var out := CommandLineArguments(s, showScale);
            && (|ks| == 0 <==> out == "")
            && (|ks| > 0 ==> EndsWith(out, OptionText(s, ks[|ks| - 1], showScale)))
  {
    CommandLineIsEmittedWords(s, showScale);
    var ks := Emitted(s, OPTION_ORDER);
    WordsEnd(Texts(s, ks, showScale));
  }

  /** Non-empty words join to the empty string exactly when there are none,
      and otherwise to a text ending with the last word. */
  lemma WordsEnd(ws: seq<string>)
    requires forall i :: 0 <= i < |ws| ==> |ws[i]| > 0
    ensures |ws| == 0 <==> Words(ws) == ""
    ensures |ws| > 0 ==> EndsWith(Words(ws), ws[|ws| - 1])
  {
    if |ws| > 0 {
      JoinEndsWithLast(ws, ' ');
    }
  }

  /** A session that departs from the defaults only in its separator renders
      as that one option; with the separator ' ' the rendering ends in a space
      although its trailing space was removed. */
  lemma OnlySeparatorDeparts(s: Session, showScale: real -> string)
    requires forall k :: Departs(s, k) <==> k == SeparatorOption
    ensures CommandLineArguments(s, showScale) == "--separator " + [s.separator]
    ensures s.separator == ' ' ==> CommandLineArguments(s, showScale) == "--separator  "
  {
    EmittedOptions(s);
    CommandLineIsEmittedWords(s, showScale);
    var e := Emitted(s, OPTION_ORDER);
    assert SeparatorOption in e;
    assert forall i :: 0 <= i < |e| ==> e[i] == SeparatorOption by {
      forall i | 0 <= i < |e| ensures e[i] == SeparatorOption {
        assert Departs(s, e[i]);
      }
    }
    assert e == [SeparatorOption];
    assert Texts(s, e, showScale) == [OptionText(s, SeparatorOption, showScale)];
  }
}

=== FILE: tablegenerator.dfy ===
/** TableGenerator: where a table's output goes (getPath), how an output file
    is opened (the exists / overwrite / truncate decision), and how the rows
    of each generated result are routed to the parent and child files. The
    files are an abstract map from path to contents. */
module TableGeneration {
  import opened Wrappers
  import opened TpcdsErrors
  import opened JavaInt
  import opened Text
  import opened Tables
  import opened Sessions
  import opened RowFormat

  // ---------------------------------------------------------------------
  // Output paths

  /** The file name of a table's output: name<suffix>, and
      name_<chunk>_<parallelism><suffix> when the run is split over more than
      one chunk. */
  function FileName(s: Session, t: Table): string {
    if s.parallelism > 1 then
      t.name + "_" + IntToString(s.chunkNumber) + "_" + IntToString(s.parallelism) + s.suffix
    else
      t.name + s.suffix
  }

  /** The output path of a table: dir/name/<file name>. fileSep is
      File.separator. */
  function GetPath(s: Session, t: Table, fileSep: char): string {
    s.targetDirectory + [fileSep] + t.name + [fileSep] + FileName(s, t)
  }

  lemma CancelPrefix(p: string, a: string, b: string)
    requires p + a == p + b
    ensures a == b
  {
    assert a == (p + a)[|p|..];
    assert b == (p + b)[|p|..];
  }

  lemma CancelAround(p: string, a: string, b: string, q: string)
    requires p + a + q == p + b + q
    ensures a == b
  {
    var x := p + a + q;
    var y := p + b + q;
    assert |a| == |b|;
    assert a == x[|p|..|p| + |a|];
    assert b == y[|p|..|p| + |b|];
  }

  /** Within a split run, different chunks write different files; an unsplit
      run writes the same file whatever its chunk number. */
  lemma GetPathPerChunk(s: Session, t: Table, fileSep: char, c1: Int32, c2: Int32)
    ensures s.parallelism > 1 ==>
      (GetPath(WithChunkNumber(s, c1), t, fileSep) == GetPath(WithChunkNumber(s, c2), t, fileSep) <==> c1 == c2)
    ensures s.parallelism <= 1 ==>
      GetPath(WithChunkNumber(s, c1), t, fileSep) == GetPath(WithChunkNumber(s, c2), t, fileSep)
  {
    var s1 := WithChunkNumber(s, c1);
    var s2 := WithChunkNumber(s, c2);
    if s.parallelism > 1 && GetPath(s1, t, fileSep) == GetPath(s2, t, fileSep) {
      var d := s.targetDirectory + [fileSep] + t.name + [fileSep];
      assert GetPath(s1, t, fileSep) == d + FileName(s1, t);
      assert GetPath(s2, t, fileSep) == d + FileName(s2, t);
      CancelPrefix(d, FileName(s1, t), FileName(s2, t));
      var p := t.name + "_";
      var q := "_" + IntToString(s.parallelism) + s.suffix;
      assert FileName(s1, t) == p + IntToString(c1) + q;
      assert FileName(s2, t) == p + IntToString(c2) + q;
      CancelAround(p, IntToString(c1), IntToString(c2), q);
      IntToStringInjective(c1, c2);
    }
  }

  lemma FirstSegment(x: string, y: string, c: char, b: string, d: string)
    requires c !in x && c !in y && x + [c] + b == y + [c] + d
    ensures x == y
  {
    IndexOfAfterField(x, c, b);
    IndexOfAfterField(y, c, d);
    assert x == (x + [c] + b)[..|x|];
    assert y == (y + [c] + d)[..|y|];
  }

  /** Tables whose names do not contain the file separator have different
      files in the same run exactly when their names differ. */
  lemma GetPathSeparatesTables(s: Session, t1: Table, t2: Table, fileSep: char)
    requires fileSep !in t1.name && fileSep !in t2.name
    ensures GetPath(s, t1, fileSep) == GetPath(s, t2, fileSep) <==> t1.name == t2.name
  {
    if GetPath(s, t1, fileSep) == GetPath(s, t2, fileSep) {
      var d := s.targetDirectory + [fileSep];
      var f1 := FileName(s, t1);
      var f2 := FileName(s, t2);
      assert GetPath(s, t1, fileSep) == d + (t1.name + [fileSep] + f1);
      assert GetPath(s, t2, fileSep) == d + (t2.name + [fileSep] + f2);
      CancelPrefix(d, t1.name + [fileSep] + f1, t2.name + [fileSep] + f2);
      FirstSegment(t1.name, t2.name, fileSep, f1, f2);
    }
  }

  // ---------------------------------------------------------------------
  // Opening an output file

  /** The file system: each existing file's path and contents. */
  type Files = map<string, string>

  /** addFileWriterForTable reduced to its effect on the files, the same for
      the local and the HDFS branch: a missing file is created empty; an
      existing one is truncated when the session allows overwriting and is an
      error otherwise. The writer then appends to the file. */
  function OpenWriter(files: Files, path: string, overwrite: bool): (r: Result<Files, Error>)
    ensures r.Failure? <==> path in files && !overwrite
    ensures r.Failure? ==> r.error == FileExists(path)
    ensures r.Success? ==> r.value.Keys == files.Keys + {path} && r.value[path] == ""
    ensures r.Success? ==> forall p :: p in files && p != path ==> r.value[p] == files[p]
  {
    var created := path !in files;
    if created then Success(files[path := ""])
    else if overwrite then Success(files[path := ""])
    else Failure(FileExists(path))
  }

  // ---------------------------------------------------------------------
  // Routing rows

  /** The outcome of a generation: the files afterwards, and the error that
      stopped it, if any. Files written before an error keep what was written. */
  datatype Run = Run(files: Files, error: Option<Error>)

  /** One writeResults call: the row is formatted and appended to the file. */
  function Append(files: Files, path: string, row: seq<Option<string>>, s: Session): Run
    requires path in files
  {
    match FormatRow(row, s)
    case Failure(e) => Run(files, Some(e))
    case Success(line) => Run(files[path := files[path] + line], None)
  }

  /** One iteration of the loop in generateTable: element 0 of a result goes to
      the parent file, element 1 to the child file (which must have been
      opened), and any further element is ignored. */
  function WriteResult(files: Files, s: Session, parentPath: string, childPath: Option<string>,
                       result: seq<seq<Option<string>>>): (r: Run)
    requires parentPath in files && (childPath.Some? ==> childPath.value in files)
    ensures r.files.Keys == files.Keys
    // with distinct files, it succeeds exactly when the result is writable, and
    // then adds element 0 to the parent file and element 1 to the child file
    ensures childPath.Some? ==> childPath.value != parentPath ==>
              (r.error.None? <==> WritableResult(result, true))
    ensures childPath.None? ==> (r.error.None? <==> WritableResult(result, false))
    ensures r.error.None? && (childPath.Some? ==> childPath.value != parentPath) ==>
              && r.files[parentPath] == files[parentPath] + Part(result, 0, s)
              && (childPath.Some? ==> r.files[childPath.value] == files[childPath.value] + Part(result, 1, s))
              && forall p :: p in files && p != parentPath && Some(p) != childPath ==> r.files[p] == files[p]
  {
    var afterParent := if |result| > 0 then Append(files, parentPath, result[0], s) else Run(files, None);
    if afterParent.error.Some? || |result| <= 1 then afterParent
    else if childPath.None? then Run(afterParent.files, Some(ChildWriterMissing))
    else Append(afterParent.files, childPath.value, result[1], s)
  }

  /** The loop of generateTable over all results, stopping at the first error. */
  function WriteResults(files: Files, s: Session, parentPath: string, childPath: Option<string>,
                        results: seq<seq<seq<Option<string>>>>): (r: Run)
    requires parentPath in files && (childPath.Some? ==> childPath.value in files)
    ensures r.files.Keys == files.Keys
    decreases |results|
  {
    if |results| == 0 then Run(files, None)
    else
      var first := WriteResult(files, s, parentPath, childPath, results[0]);
      if first.error.Some? then first
      else WriteResults(first.files, s, parentPath, childPath, results[1..])
  }

  /** Whether the run will open a child writer: the table has a child and the
      run is not restricted to a single table. */
  predicate HasChildWriter(s: Session, t: Table) {
    t.HasChild() && !s.GenerateOnlyOneTable()
  }

  /** generateTable. `results` stands for the rows constructResults produces
      for the table and session, each a list of a parent row and possibly a
      child row; a row is a list of values, None for a null. */
  function GenerateTable(s: Session, t: Table, results: seq<seq<seq<Option<string>>>>,
                         files: Files, fileSep: char): (r: Run)
    // a child table is not generated on its own unless the run is restricted to it
    ensures t.isChild && !s.GenerateOnlyOneTable() ==> r == Run(files, None)
    // without permission to overwrite, an existing output file stops the run
    // before any row is written: an existing parent file leaves every file as it
    // was, an existing child file leaves only the emptied parent file behind
    ensures !(t.isChild && !s.GenerateOnlyOneTable()) && !s.overwrite ==>
              var parentPath := GetPath(s, t, fileSep);
              && (parentPath in files ==> r == Run(files, Some(FileExists(parentPath))))
              && (parentPath !in files && HasChildWriter(s, t) && GetPath(s, t.child.value, fileSep) in files ==>
                    r == Run(files[parentPath := ""], Some(FileExists(GetPath(s, t.child.value, fileSep)))))
  {
    if t.isChild && !s.GenerateOnlyOneTable() then Run(files, None)
    else
      var parentPath := GetPath(s, t, fileSep);
      match OpenWriter(files, parentPath, s.overwrite)
      case Failure(e) => Run(files, Some(e))
      case Success(withParent) =>
        if HasChildWriter(s, t) then
          var childPath := GetPath(s, t.child.value, fileSep);
          match OpenWriter(withParent, childPath, s.overwrite)
          case Failure(e) => Run(withParent, Some(e))
          case Success(withChild) => WriteResults(withChild, s, parentPath, Some(childPath), results)
        else WriteResults(withParent, s, parentPath, None, results)
  }

  // ---------------------------------------------------------------------
  // What reaches each file

  /** The rows routed to writer i: element i of every result that has one. */
  function Column(results: seq<seq<seq<Option<string>>>>, i: nat): (rows: seq<seq<Option<string>>>)
    ensures |rows| <= |results|
  {
    if |results| == 0 then []
    else (if |results[0]| > i then [results[0][i]] else []) + Column(results[1..], i)
  }

  /** The text a routed row adds to its file (nothing for a row that cannot
      be formatted, which stops the run instead). */
  function LineOf(row: seq<Option<string>>, s: Session): string {
    match FormatRow(row, s)
    case Success(line) => line
    case Failure(_) => ""
  }

  /** The formatted lines of rows, one after another. */
  function Lines(rows: seq<seq<Option<string>>>, s: Session): string {
    if |rows| == 0 then "" else LineOf(rows[0], s) + Lines(rows[1..], s)
  }

  /** What one result adds to writer i. */
  function Part(result: seq<seq<Option<string>>>, i: nat, s: Session): string {
    if |result| > i then LineOf(result[i], s) else ""
  }

  /** A result whose routed rows can be formatted, and which has a child row
      only when there is a child writer. */
  predicate WritableResult(result: seq<seq<Option<string>>>, childWriter: bool) {
    && (|result| > 0 ==> |result[0]| > 0)
    && (|result| > 1 ==> childWriter && |result[1]| > 0)
  }

  predicate Writable(results: seq<seq<seq<Option<string>>>>, childWriter: bool) {
    forall i :: 0 <= i < |results| ==> WritableResult(results[i], childWriter)
  }

  lemma LinesOfColumn(results: seq<seq<seq<Option<string>>>>, i: nat, s: Session)
    requires |results| > 0
    ensures Lines(Column(results, i), s) == Part(results[0], i, s) + Lines(Column(results[1..], i), s)
  {
    var rest := Column(results[1..], i);
    if |results[0]| > i {
      assert Column(results, i) == [results[0][i]] + rest;
      assert ([results[0][i]] + rest)[1..] == rest;
    } else {
      assert Column(results, i) == rest;
    }
  }

  /** Concatenation regroups freely. */
  lemma AppendAssociative(a: string, b: string, c: string)
    ensures (a + b) + c == a + (b + c)
  {
  }

  /** The loop succeeds exactly when every result is writable; then the
      parent file has gained the lines of the element-0 rows and the child
      file those of the element-1 rows, in order, and no other file changed. */
  lemma {:induction false} WriteResultsRouting(files: Files, s: Session, parentPath: string, childPath: Option<string>,
                                              results: seq<seq<seq<Option<string>>>>)
    requires parentPath in files && (childPath.Some? ==> childPath.value in files && childPath.value != parentPath)
    ensures var r := WriteResults(files, s, parentPath, childPath, results);
            && (r.error.None? <==> Writable(results, childPath.Some?))
            && (r.error.None? ==>
                  && r.files[parentPath] == files[parentPath] + Lines(Column(results, 0), s)
                  && (childPath.Some? ==> r.files[childPath.value] == files[childPath.value] + Lines(Column(results, 1), s))
                  && forall p :: p in files && p != parentPath && Some(p) != childPath ==> r.files[p] == files[p])
    decreases |results|
  {
    if |results| > 0 {
      var first := WriteResult(files, s, parentPath, childPath, results[0]);
      if first.error.None? {
        WriteResultsRouting(first.files, s, parentPath, childPath, results[1..]);
        var r := WriteResults(first.files, s, parentPath, childPath, results[1..]);
        assert r == WriteResults(files, s, parentPath, childPath, results);
        if r.error.None? {
          LinesOfColumn(results, 0, s);
          var restLines := Lines(Column(results[1..], 0), s);
          assert r.files[parentPath] == (files[parentPath] + Part(results[0], 0, s)) + restLines;
          AppendAssociative(files[parentPath], Part(results[0], 0, s), restLines);
          if childPath.Some? {
            var c := childPath.value;
            LinesOfColumn(results, 1, s);
            var restChild := Lines(Column(results[1..], 1), s);
            assert r.files[c] == (files[c] + Part(results[0], 1, s)) + restChild;
            AppendAssociative(files[c], Part(results[0], 1, s), restChild);
          }
        }
        assert Writable(results, childPath.Some?) <==> Writable(results[1..], childPath.Some?) by {
          assert forall i :: 0 < i < |results| ==> results[1..][i - 1] == results[i];
        }
      }
    }
  }

  // ---------------------------------------------------------------------
  // generateTable as a whole

  /** Once its files are open, a generated table's parent file holds exactly
      the lines of the element-0 rows and its child file (opened only when the
      table has a child and the run is not restricted to one table) exactly
      those of the element-1 rows: whatever the files held before is gone. The
      run succeeds exactly when every result is writable, so a child row
      without a child writer is fatal; no other file changes. */
  lemma GenerateTableRouting(s: Session, t: Table, results: seq<seq<seq<Option<string>>>>,
                             files: Files, fileSep: char)
    requires !(t.isChild && !s.GenerateOnlyOneTable())
    requires GetPath(s, t, fileSep) !in files || s.overwrite
    requires HasChildWriter(s, t) ==>
               && (GetPath(s, t.child.value, fileSep) !in files || s.overwrite)
               && GetPath(s, t.child.value, fileSep) != GetPath(s, t, fileSep)
    ensures var parentPath := GetPath(s, t, fileSep);
            var r := GenerateTable(s, t, results, files, fileSep);
            && (r.error.None? <==> Writable(results, HasChildWriter(s, t)))
            && (r.error.None? ==>
                  && r.files[parentPath] == Lines(Column(results, 0), s)
                  && (HasChildWriter(s, t) ==>
                        r.files[GetPath(s, t.child.value, fileSep)] == Lines(Column(results, 1), s))
                  && forall p :: p in files && p != parentPath
                                 && (HasChildWriter(s, t) ==> p != GetPath(s, t.child.value, fileSep))
                                 ==> p in r.files && r.files[p] == files[p])
  {
    var parentPath := GetPath(s, t, fileSep);
    var withParent := OpenWriter(files, parentPath, s.overwrite).value;
    if HasChildWriter(s, t) {
      var childPath := GetPath(s, t.child.value, fileSep);
      var withChild := OpenWriter(withParent, childPath, s.overwrite).value;
      WriteResultsRouting(withChild, s, parentPath, Some(childPath), results);
    } else {
      WriteResultsRouting(withParent, s, parentPath, None, results);
    }
  }
}

=== FILE: text.dfy ===
/** The string machinery the generator borrows from the Java library: decimal
    rendering of integers (what %d and StringBuilder.append produce), and
    joining a list of fields with a one-character separator, with its inverse
    Split. */
module Text {

  /** The decimal digit character for d. */
  function Digit(d: nat): (c: char)
    requires d < 10
    ensures '0' <= c <= '9'
  {
    (('0' as int) + d) as char
  }

  predicate IsDigit(c: char) {
    '0' <= c <= '9'
  }

  /** The decimal rendering of a non-negative integer, without leading zeros. */
  function NatToString(n: nat): (r: string)
    ensures |r| >= 1
    ensures n < 10 <==> |r| == 1
    ensures forall i :: 0 <= i < |r| ==> IsDigit(r[i])
    decreases n
  {
    if n < 10 then [Digit(n)] else NatToString(n / 10) + [Digit(n % 10)]
  }

  /** Java's rendering of an int or long by %d or StringBuilder.append: a minus
      sign for negative values, then the decimal digits of the magnitude. */
  function IntToString(i: int): (r: string)
    ensures |r| >= 1
    ensures i < 0 <==> r[0] == '-'
  {
    if i < 0 then "-" + NatToString(-i) else NatToString(i)
  }

  /** Different numbers have different decimal renderings. */
  lemma {:induction false} NatToStringInjective(a: nat, b: nat)
    requires NatToString(a) == NatToString(b)
    ensures a == b
    decreases a
  {
    if a < 10 {
      assert |NatToString(b)| == 1;
      assert Digit(a) as int == '0' as int + a;
      assert Digit(b) as int == '0' as int + b;
    } else {
      assert b >= 10;
      var sa := NatToString(a / 10);
      var sb := NatToString(b / 10);
      assert sa + [Digit(a % 10)] == sb + [Digit(b % 10)];
      assert |sa| == |sb|;
      assert sa == (sa + [Digit(a % 10)])[..|sa|];
      assert sb == (sb + [Digit(b % 10)])[..|sb|];
      NatToStringInjective(a / 10, b / 10);
      assert Digit(a % 10) == (sa + [Digit(a % 10)])[|sa|];
      assert Digit(a % 10) as int == '0' as int + a % 10;
      assert Digit(b % 10) as int == '0' as int + b % 10;
    }
  }

  /** Different integers have different renderings. */
  lemma IntToStringInjective(a: int, b: int)
    requires IntToString(a) == IntToString(b)
    ensures a == b
  {
    if a < 0 {
      assert b < 0;
      assert NatToString(-a) == IntToString(a)[1..];
      assert NatToString(-b) == IntToString(b)[1..];
      NatToStringInjective(-a, -b);
    } else {
      assert b >= 0;
      NatToStringInjective(a, b);
    }
  }

  // ---------------------------------------------------------------------
  // Joining and splitting on a one-character separator

  /** Occurrences of c in s. */
  function Count(s: string, c: char): (n: nat)
    ensures n <= |s|
    ensures n == 0 <==> c !in s
  {
    if |s| == 0 then 0 else (if s[0] == c then 1 else 0) + Count(s[1..], c)
  }

  lemma {:induction false} CountAppend(a: string, b: string, c: char)
    ensures Count(a + b, c) == Count(a, c) + Count(b, c)
    decreases |a|
  {
    if |a| > 0 {
      assert (a + b)[1..] == a[1..] + b;
      CountAppend(a[1..], b, c);
    } else {
      assert a + b == b;
    }
  }

  /** The fields written one after another, with sep between neighbours, the
      way formatRow appends values.get(0) and then sep + values.get(i). */
  function Join(fields: seq<string>, sep: char): string
    requires |fields| > 0
  {
    if |fields| == 1 then fields[0] else fields[0] + [sep] + Join(fields[1..], sep)
  }

  /** The position of the first c in s. */
  function IndexOf(s: string, c: char): (k: nat)
    requires c in s
    ensures k < |s| && s[k] == c && c !in s[..k]
  {
    if s[0] == c then 0 else 1 + IndexOf(s[1..], c)
  }

  /** The pieces of s between occurrences of sep (one more piece than there
      are separators). */
  function Split(s: string, sep: char): (r: seq<string>)
    ensures |r| == Count(s, sep) + 1
    decreases |s|
  {
    if sep in s then
      var k := IndexOf(s, sep);
      CountSplitsAt(s, sep, k);
      [s[..k]] + Split(s[k + 1..], sep)
    else [s]
  }

  lemma CountSplitsAt(s: string, sep: char, k: nat)
    requires k < |s| && s[k] == sep && sep !in s[..k]
    ensures Count(s, sep) == Count(s[k + 1..], sep) + 1
  {
    assert s == s[..k] + [sep] + s[k + 1..];
    CountAppend(s[..k] + [sep], s[k + 1..], sep);
    CountAppend(s[..k], [sep], sep);
  }

  /** The first separator of a + [sep] + b is the one between them when a has
      none. */
  lemma IndexOfAfterField(a: string, sep: char, b: string)
    requires sep !in a
    ensures IndexOf(a + [sep] + b, sep) == |a|
  {
    var s := a + [sep] + b;
    var k := IndexOf(s, sep);
    assert forall j :: 0 <= j < |a| ==> s[j] == a[j];
    assert s[|a|] == sep;
    assert k <= |a| ==> s[..k] == a[..k];
  }

  /** Split undoes Join when no field contains the separator. */
  lemma {:induction false} SplitJoin(fields: seq<string>, sep: char)
    requires |fields| > 0
    requires forall i :: 0 <= i < |fields| ==> sep !in fields[i]
    ensures Split(Join(fields, sep), sep) == fields
  {
    if |fields| > 1 {
      var rest := Join(fields[1..], sep);
      var s := fields[0] + [sep] + rest;
      assert Join(fields, sep) == s;
      IndexOfAfterField(fields[0], sep, rest);
      assert s[..|fields[0]|] == fields[0];
      assert s[|fields[0]| + 1..] == rest;
      SplitJoin(fields[1..], sep);
      assert fields == [fields[0]] + fields[1..];
    }
  }

  /** Joining n fields that do not contain c: c occurs n - 1 times when it is
      the separator and not at all otherwise. */
  lemma {:induction false} CountJoin(fields: seq<string>, sep: char, c: char)
    requires |fields| > 0
    requires forall i :: 0 <= i < |fields| ==> c !in fields[i]
    ensures Count(Join(fields, sep), c) == if c == sep then |fields| - 1 else 0
  {
    if |fields| > 1 {
      CountJoin(fields[1..], sep, c);
      CountAppend(fields[0] + [sep], Join(fields[1..], sep), c);
      CountAppend(fields[0], [sep], c);
      assert Count([sep], c) == if c == sep then 1 else 0 by {
        assert [sep][1..] == [];
      }
    }
  }

  predicate EndsWith(s: string, suffix: string) {
    |suffix| <= |s| && s[|s| - |suffix|..] == suffix
  }

  /** The joined text ends with the last field. */
  lemma {:induction false} JoinEndsWithLast(fields: seq<string>, sep: char)
    requires |fields| > 0
    ensures EndsWith(Join(fields, sep), fields[|fields| - 1])
  {
    if |fields| > 1 {
      JoinEndsWithLast(fields[1..], sep);
      var rest := Join(fields[1..], sep);
      var s := fields[0] + [sep] + rest;
      assert s[|s| - |rest|..] == rest;
    }
  }
}

=== FILE: website.dfy ===
/** The web-site dimension's row step (WebSiteRowGenerator): one call turns a
    row number, the session, the generator's previous row and the values its
    random sources yield into the emitted row and the new previous row.

    The random sources are parameters: the null bitmap, the join keys for the
    open and close dates, the raw field-change draw, the name pickers, the
    random texts and integers, the address and the tax percentage (Draws);
    computeScdKey and the word generator are functions; and
    getValueForSlowlyChangingDimension is an arbitrary Chooser, so every
    property below holds whatever rule it follows. */
module WebSite {
  import opened Wrappers
  import opened TpcdsErrors
  import opened JavaInt
  import opened Text
  import opened Sessions

  /** A fixed-point decimal (unscaled number and precision), kept opaque:
      its arithmetic is not part of this model. */
  datatype Decimal = Decimal(number: int, precision: int)

  datatype Address = Address(
    suiteNumber: string,
    streetNumber: int,
    streetName1: string,
    streetName2: string,
    streetType: string,
    city: string,
    county: string,
    state: string,
    country: string,
    zip: int,
    gmtOffset: int)

  /** One row of the web-site dimension, in declared column order. */
  datatype WebSiteRow = WebSiteRow(
    nullBitMap: int,
    siteSk: int,
    siteId: string,
    recStartDateId: int,
    recEndDateId: int,
    name: string,
    openDate: int,
    closeDate: int,
    siteClass: string,
    manager: string,
    marketId: int,
    marketClass: string,
    marketDesc: string,
    marketManager: string,
    companyId: int,
    companyName: string,
    address: Address,
    taxPercentage: Decimal)

  /** The slowly-changing-dimension key of a row: the business key, its
      validity window and whether the row starts a new business entity. */
  datatype ScdKey = ScdKey(businessKey: string, startDate: int, endDate: int, isNewBusinessKey: bool)

  /** The first-name distribution weights a manager's name is drawn with. */
  datatype FirstNameWeights = MaleFrequency | GeneralFrequency

  /** The freshly drawn values of the fields that may change from one
      version of a business entity to the next. The first-name pickers take
      the weights the session selects. */
  datatype Candidates = Candidates(
    managerFirstName: FirstNameWeights -> string,
    managerLastName: string,
    marketId: int,
    marketClass: string,
    marketDesc: string,
    marketManagerFirstName: FirstNameWeights -> string,
    marketManagerLastName: string,
    companyId: int,
    address: Address,
    taxPercentage: Decimal)

  /** What the random sources yield for one row: the null bitmap, the join
      keys for the open and close dates, the raw field-change draw (a long)
      and the candidates. */
  datatype Draws = Draws(
    nullBitMap: int,
    openDateKey: int,
    closeDateKey: int,
    changeFlags: int,
    candidates: Candidates)

  /** The values the mutable fields end up with. */
  datatype Changes = Changes(
    manager: string,
    marketId: int,
    marketClass: string,
    marketDesc: string,
    marketManager: string,
    companyId: int,
    companyName: string,
    gmtOffset: int,
    streetNumber: int,
    zip: int,
    taxPercentage: Decimal)

  /** getValueForSlowlyChangingDimension(flags, isNewBusinessKey, old, new)
      at each value type the generator uses it with. */
  datatype Chooser = Chooser(
    text: (Int32, bool, string, string) -> string,
    number: (Int32, bool, int, int) -> int,
    decimal: (Int32, bool, Decimal, Decimal) -> Decimal)

  /** The emitted rows (the row generator result) and the generator's new
      previous row. */
  datatype Step = Step(rows: seq<WebSiteRow>, previous: Option<WebSiteRow>)

  const SITE_CLASS: string := "Unknown"

  /** The mask positions a mutable field consults, in order: manager, market
      id, market class, market description, market manager, company id,
      company name, GMT offset, street number, zip, tax percentage. */
  const CONSULTED_SLOTS: seq<nat> := [0, 1, 2, 3, 4, 5, 6, 9, 14, 15, 16]

  /** The weights the session selects for manager first names. */
  function Weights(s: Session): FirstNameWeights {
    if s.IsSexist() then MaleFrequency else GeneralFrequency
  }

  /** The freshly drawn manager name: first and last name with a space. */
  function ManagerCandidate(s: Session, c: Candidates): string {
    c.managerFirstName(Weights(s)) + " " + c.managerLastName
  }

  function MarketManagerCandidate(s: Session, c: Candidates): string {
    c.marketManagerFirstName(Weights(s)) + " " + c.marketManagerLastName
  }

  /** The name of a new business entity: site_ followed by the row number
      divided by 6, truncated toward zero and narrowed to an int. */
  function SiteName(rowNumber: int): (name: string)
    // below 6 * 2^31 the name is site_ and the row number divided by six
    ensures 0 <= rowNumber < 6 * (INT_MAX + 1) ==> name == "site_" + NatToString(rowNumber / 6)
    // beyond that the narrowing cast wraps and the name carries a minus sign
    ensures 6 * (INT_MAX + 1) <= rowNumber < 6 * 0x1_0000_0000 ==>
              name == "site_" + IntToString(rowNumber / 6 - 0x1_0000_0000) && name[5] == '-'
  {
    SiteQuotient(rowNumber);
    "site_" + IntToString(ToInt32(TruncDiv(rowNumber, 6)))
  }

  /** The narrowed quotient behind SiteName: the plain quotient below 6 * 2^31,
      and the quotient less 2^32 from there up to 6 * 2^32. */
  lemma SiteQuotient(rowNumber: int)
    ensures 0 <= rowNumber < 6 * (INT_MAX + 1) ==> ToInt32(TruncDiv(rowNumber, 6)) == rowNumber / 6
    ensures 6 * (INT_MAX + 1) <= rowNumber < 6 * 0x1_0000_0000 ==>
              ToInt32(TruncDiv(rowNumber, 6)) == rowNumber / 6 - 0x1_0000_0000
  {
  }

  /** A mutable field's value: with a previous row, whatever the chooser makes
      of the mask, the key's newness, the previous value and the candidate;
      without one, the candidate. */
  function ScdValue<T>(choose: (Int32, bool, T, T) -> T, previous: Option<WebSiteRow>, flags: Int32,
                       isNew: bool, prior: WebSiteRow -> T, candidate: T): T
  {
    if previous.Some? then choose(flags, isNew, prior(previous.value), candidate) else candidate
  }

  /** The field-change walk: the mask starts as the narrowed change draw and
      is shifted right by one after each field, whether or not that field
      consults it. */
  function ChangeFields(previous: Option<WebSiteRow>, isNew: bool, flags0: Int32, s: Session, c: Candidates,
                        word: int -> string, choose: Chooser): (m: Changes)
    // with nothing to compare against, every mutable field takes its candidate
    ensures previous.None? ==>
              && m.manager == ManagerCandidate(s, c)
              && m.marketId == c.marketId
              && m.marketClass == c.marketClass
              && m.marketDesc == c.marketDesc
              && m.marketManager == MarketManagerCandidate(s, c)
              && m.companyId == c.companyId
              && m.companyName == word(c.companyId)
              && m.gmtOffset == c.address.gmtOffset
              && m.streetNumber == c.address.streetNumber
              && m.zip == c.address.zip
              && m.taxPercentage == c.taxPercentage
  {
    var manager := ScdValue(choose.text, previous, flags0, isNew, (p: WebSiteRow) => p.manager,
                            ManagerCandidate(s, c));
    var flags1 := Shr1(flags0);
    var marketId := ScdValue(choose.number, previous, flags1, isNew, (p: WebSiteRow) => p.marketId, c.marketId);
    var flags2 := Shr1(flags1);
    var marketClass := ScdValue(choose.text, previous, flags2, isNew, (p: WebSiteRow) => p.marketClass,
                                c.marketClass);
    var flags3 := Shr1(flags2);
    var marketDesc := ScdValue(choose.text, previous, flags3, isNew, (p: WebSiteRow) => p.marketDesc,
                               c.marketDesc);
    var flags4 := Shr1(flags3);
    var marketManager := ScdValue(choose.text, previous, flags4, isNew, (p: WebSiteRow) => p.marketManager,
                                  MarketManagerCandidate(s, c));
    var flags5 := Shr1(flags4);
    var companyId := ScdValue(choose.number, previous, flags5, isNew, (p: WebSiteRow) => p.companyId,
                              c.companyId);
    var flags6 := Shr1(flags5);
    var companyName := ScdValue(choose.text, previous, flags6, isNew, (p: WebSiteRow) => p.companyName,
                                word(companyId));
    var flags7 := Shr1(flags6);
    // city and county always come from the fresh address
    var flags8 := Shr1(flags7);
    var flags9 := Shr1(flags8);
    var gmtOffset := ScdValue(choose.number, previous, flags9, isNew, (p: WebSiteRow) => p.address.gmtOffset,
                              c.address.gmtOffset);
    var flags10 := Shr1(flags9);
    // state, street type and both street names always come from the fresh address
    var flags11 := Shr1(flags10);
    var flags12 := Shr1(flags11);
    var flags13 := Shr1(flags12);
    var flags14 := Shr1(flags13);
    var streetNumber := ScdValue(choose.number, previous, flags14, isNew,
                                 (p: WebSiteRow) => p.address.streetNumber, c.address.streetNumber);
    var flags15 := Shr1(flags14);
    var zip := ScdValue(choose.number, previous, flags15, isNew, (p: WebSiteRow) => p.address.zip,
                        c.address.zip);
    var flags16 := Shr1(flags15);
    var taxPercentage := ScdValue(choose.decimal, previous, flags16, isNew, (p: WebSiteRow) => p.taxPercentage,
                                  c.taxPercentage);
    Changes(manager, marketId, marketClass, marketDesc, marketManager, companyId, companyName,
            gmtOffset, streetNumber, zip, taxPercentage)
  }

  /** generateRowAndChildRows for the web-site table. */
  function GenerateRow(rowNumber: int, s: Session, previous: Option<WebSiteRow>, computeScdKey: int -> ScdKey,
                       d: Draws, word: int -> string, choose: Chooser): (r: Result<Step, Error>)
    ensures r.Failure? <==> !computeScdKey(rowNumber).isNewBusinessKey && previous.None?
    ensures r.Failure? ==> r.error == PreviousRowMissing
    ensures r.Success? ==> |r.value.rows| == 1 && r.value.previous == Some(r.value.rows[0])
    ensures r.Success? ==>
              var row := r.value.rows[0];
              var key := computeScdKey(rowNumber);
              && row.siteSk == rowNumber && row.nullBitMap == d.nullBitMap
              && row.siteId == key.businessKey
              && row.recStartDateId == key.startDate && row.recEndDateId == key.endDate
              && row.siteClass == "Unknown"
    // a continuation row keeps the business entity's identity
    ensures r.Success? && !computeScdKey(rowNumber).isNewBusinessKey ==>
              var row := r.value.rows[0];
              && row.openDate == previous.value.openDate
              && row.closeDate == previous.value.closeDate
              && row.name == previous.value.name
    // a new business entity gets a fresh identity, closing no later than its record
    ensures r.Success? && computeScdKey(rowNumber).isNewBusinessKey ==>
              var row := r.value.rows[0];
              var key := computeScdKey(rowNumber);
              && row.openDate == d.openDateKey
              && row.name == SiteName(rowNumber)
              && (row.closeDate == -1 || row.closeDate <= key.endDate)
              && (d.closeDateKey <= key.endDate ==> row.closeDate == d.closeDateKey)
              && (d.closeDateKey > key.endDate ==> row.closeDate == -1)
    // with nothing to compare against, the row carries the fresh address
    ensures r.Success? && previous.None? ==> r.value.rows[0].address == d.candidates.address
    // the address is the fresh one except for the three fields the mask governs
    ensures r.Success? ==>
              var a := r.value.rows[0].address;
              a == d.candidates.address.(streetNumber := a.streetNumber, zip := a.zip, gmtOffset := a.gmtOffset)
  {
    var key := computeScdKey(rowNumber);
    var isNew := key.isNewBusinessKey;
    if !isNew && previous.None? then Failure(PreviousRowMissing)
    else
      var openDate := if isNew then d.openDateKey else previous.value.openDate;
      var closeDate :=
        if !isNew then previous.value.closeDate
        else if d.closeDateKey > key.endDate then -1
        else d.closeDateKey;
      var name := if isNew then SiteName(rowNumber) else previous.value.name;
      var m := ChangeFields(previous, isNew, ToInt32(d.changeFlags), s, d.candidates, word, choose);
      var drawn := d.candidates.address;
      var address := Address(drawn.suiteNumber, m.streetNumber, drawn.streetName1, drawn.streetName2,
                             drawn.streetType, drawn.city, drawn.county, drawn.state, drawn.country,
                             m.zip, m.gmtOffset);
      var row := WebSiteRow(d.nullBitMap, rowNumber, key.businessKey, key.startDate, key.endDate, name,
                            openDate, closeDate, SITE_CLASS, m.manager, m.marketId, m.marketClass, m.marketDesc,
                            m.marketManager, m.companyId, m.companyName, address, m.taxPercentage);
      Success(Step([row], Some(row)))
  }

  /** The first seventeen shifts of x, one after the other. */
  lemma ShiftSteps(x: Int32)
    ensures Shift(x, 0) == x
    ensures Shift(x, 1) == Shr1(Shift(x, 0))
    ensures Shift(x, 2) == Shr1(Shift(x, 1))
    ensures Shift(x, 3) == Shr1(Shift(x, 2))
    ensures Shift(x, 4) == Shr1(Shift(x, 3))
    ensures Shift(x, 5) == Shr1(Shift(x, 4))
    ensures Shift(x, 6) == Shr1(Shift(x, 5))
    ensures Shift(x, 7) == Shr1(Shift(x, 6))
    ensures Shift(x, 8) == Shr1(Shift(x, 7))
    ensures Shift(x, 9) == Shr1(Shift(x, 8))
    ensures Shift(x, 10) == Shr1(Shift(x, 9))
    ensures Shift(x, 11) == Shr1(Shift(x, 10))
    ensures Shift(x, 12) == Shr1(Shift(x, 11))
    ensures Shift(x, 13) == Shr1(Shift(x, 12))
    ensures Shift(x, 14) == Shr1(Shift(x, 13))
    ensures Shift(x, 15) == Shr1(Shift(x, 14))
    ensures Shift(x, 16) == Shr1(Shift(x, 15))
  {
  }

  /** The mask position each mutable field consults: each is decided at the
      narrowed change draw shifted right by its slot, and the company name's
      candidate is the word for the company id the row ends up with. */
  lemma {:induction false} MaskSlots(rowNumber: int, s: Session, previous: Option<WebSiteRow>,
                                     computeScdKey: int -> ScdKey, d: Draws, word: int -> string,
                                     choose: Chooser, row: WebSiteRow)
    requires GenerateRow(rowNumber, s, previous, computeScdKey, d, word, choose) == Success(Step([row], Some(row)))
    ensures var f := ToInt32(d.changeFlags);
            var isNew := computeScdKey(rowNumber).isNewBusinessKey;
            var c := d.candidates;
            && row.manager == ScdValue(choose.text, previous, Shift(f, 0), isNew,
                                       (p: WebSiteRow) => p.manager, ManagerCandidate(s, c))
            && row.marketId == ScdValue(choose.number, previous, Shift(f, 1), isNew,
                                        (p: WebSiteRow) => p.marketId, c.marketId)
            && row.marketClass == ScdValue(choose.text, previous, Shift(f, 2), isNew,
                                           (p: WebSiteRow) => p.marketClass, c.marketClass)
            && row.marketDesc == ScdValue(choose.text, previous, Shift(f, 3), isNew,
                                          (p: WebSiteRow) => p.marketDesc, c.marketDesc)
            && row.marketManager == ScdValue(choose.text, previous, Shift(f, 4), isNew,
                                             (p: WebSiteRow) => p.marketManager, MarketManagerCandidate(s, c))
            && row.companyId == ScdValue(choose.number, previous, Shift(f, 5), isNew,
                                         (p: WebSiteRow) => p.companyId, c.companyId)
            && row.companyName == ScdValue(choose.text, previous, Shift(f, 6), isNew,
                                           (p: WebSiteRow) => p.companyName, word(row.companyId))
            && row.address.gmtOffset == ScdValue(choose.number, previous, Shift(f, 9), isNew,
                                                 (p: WebSiteRow) => p.address.gmtOffset, c.address.gmtOffset)
            && row.address.streetNumber == ScdValue(choose.number, previous, Shift(f, 14), isNew,
                                                    (p: WebSiteRow) => p.address.streetNumber, c.address.streetNumber)
            && row.address.zip == ScdValue(choose.number, previous, Shift(f, 15), isNew,
                                           (p: WebSiteRow) => p.address.zip, c.address.zip)
            && row.taxPercentage == ScdValue(choose.decimal, previous, Shift(f, 16), isNew,
                                             (p: WebSiteRow) => p.taxPercentage, c.taxPercentage)
  {
    ShiftSteps(ToInt32(d.changeFlags));
  }

  /** The mask values the generator hands to the chooser for one change draw:
      the narrowed draw shifted right by each consulted slot. */
  ghost function ConsultedFlags(changeFlags: int): set<Int32>
  {
    set k | k in CONSULTED_SLOTS :: Shift(ToInt32(changeFlags), k)
  }

  /** Two choosers that give the same answer whenever the mask value is in
      flags. */
  ghost predicate AgreeOn(c1: Chooser, c2: Chooser, flags: set<Int32>)
  {
    && (forall v, isNew, prior, candidate | v in flags :: c1.text(v, isNew, prior, candidate) == c2.text(v, isNew, prior, candidate))
    && (forall v, isNew, prior, candidate | v in flags :: c1.number(v, isNew, prior, candidate) == c2.number(v, isNew, prior, candidate))
    && (forall v, isNew, prior, candidate | v in flags :: c1.decimal(v, isNew, prior, candidate) == c2.decimal(v, isNew, prior, candidate))
  }

  /** The field-change walk consults the chooser only at the mask values of
      the consulted slots. */
  lemma {:induction false} ChangeFieldsReadConsultedFlags(previous: Option<WebSiteRow>, isNew: bool, changeFlags: int,
                                                          s: Session, c: Candidates, word: int -> string,
                                                          c1: Chooser, c2: Chooser)
    requires AgreeOn(c1, c2, ConsultedFlags(changeFlags))
    ensures ChangeFields(previous, isNew, ToInt32(changeFlags), s, c, word, c1)
         == ChangeFields(previous, isNew, ToInt32(changeFlags), s, c, word, c2)
  {
    var f := ToInt32(changeFlags);
    ShiftSteps(f);
    var flags := ConsultedFlags(changeFlags);
    assert Shift(f, 0) in flags && Shift(f, 1) in flags && Shift(f, 2) in flags && Shift(f, 3) in flags;
    assert Shift(f, 4) in flags && Shift(f, 5) in flags && Shift(f, 6) in flags && Shift(f, 9) in flags;
    assert Shift(f, 14) in flags && Shift(f, 15) in flags && Shift(f, 16) in flags;
  }

  /** The row depends on the chooser only at the mask values of the consulted
      slots: the shifts past slots 7, 8 and 10 to 13 reach no decision. */
  lemma OnlyConsultedFlagsMatter(rowNumber: int, s: Session, previous: Option<WebSiteRow>,
                                 computeScdKey: int -> ScdKey, d: Draws, word: int -> string,
                                 c1: Chooser, c2: Chooser)
    requires AgreeOn(c1, c2, ConsultedFlags(d.changeFlags))
    ensures GenerateRow(rowNumber, s, previous, computeScdKey, d, word, c1)
         == GenerateRow(rowNumber, s, previous, computeScdKey, d, word, c2)
  {
    ChangeFieldsReadConsultedFlags(previous, computeScdKey(rowNumber).isNewBusinessKey, d.changeFlags,
                                   s, d.candidates, word, c1, c2);
  }

  /** A chooser whose verdict depends on the mask value only through its
      lowest bit, as a rule "change the field when its bit is set" does. */
  ghost predicate ReadsLowBitOnly(c: Chooser)
  {
    && (forall v: Int32, w: Int32, isNew, prior, candidate | v % 2 == w % 2 ::
          c.text(v, isNew, prior, candidate) == c.text(w, isNew, prior, candidate))
    && (forall v: Int32, w: Int32, isNew, prior, candidate | v % 2 == w % 2 ::
          c.number(v, isNew, prior, candidate) == c.number(w, isNew, prior, candidate))
    && (forall v: Int32, w: Int32, isNew, prior, candidate | v % 2 == w % 2 ::
          c.decimal(v, isNew, prior, candidate) == c.decimal(w, isNew, prior, candidate))
  }

  /** The field-change walk under a one-bit chooser depends on the mask only
      through its consulted bits. */
  lemma {:induction false} ChangeFieldsReadConsultedBits(previous: Option<WebSiteRow>, isNew: bool, f: Int32, g: Int32,
                                                         s: Session, c: Candidates, word: int -> string,
                                                         choose: Chooser)
    requires ReadsLowBitOnly(choose)
    requires forall k :: k in CONSULTED_SLOTS ==> Bit(f, k) == Bit(g, k)
    ensures ChangeFields(previous, isNew, f, s, c, word, choose) == ChangeFields(previous, isNew, g, s, c, word, choose)
  {
    ShiftSteps(f);
    ShiftSteps(g);
    SameParity(f, g, 0);
    SameParity(f, g, 1);
    SameParity(f, g, 2);
    SameParity(f, g, 3);
    SameParity(f, g, 4);
    SameParity(f, g, 5);
    SameParity(f, g, 6);
    SameParity(f, g, 9);
    SameParity(f, g, 14);
    SameParity(f, g, 15);
    SameParity(f, g, 16);
  }

  /** Under a one-bit chooser, two change draws whose narrowed values agree
      on the consulted bits produce the same row: bits 7, 8 and 10 to 13, and
      everything above 16, are never read. */
  lemma OnlyConsultedBitsMatter(rowNumber: int, s: Session, previous: Option<WebSiteRow>,
                                computeScdKey: int -> ScdKey, d: Draws, word: int -> string,
                                choose: Chooser, otherFlags: int)
    requires ReadsLowBitOnly(choose)
    requires forall k :: k in CONSULTED_SLOTS ==> Bit(ToInt32(d.changeFlags), k) == Bit(ToInt32(otherFlags), k)
    ensures GenerateRow(rowNumber, s, previous, computeScdKey, d, word, choose)
         == GenerateRow(rowNumber, s, previous, computeScdKey, d.(changeFlags := otherFlags), word, choose)
  {
    ChangeFieldsReadConsultedBits(previous, computeScdKey(rowNumber).isNewBusinessKey,
                                  ToInt32(d.changeFlags), ToInt32(otherFlags), s, d.candidates, word, choose);
  }

  /** Two masks with the same bit k shift to values of the same parity. */
  lemma SameParity(f: Int32, g: Int32, k: nat)
    requires Bit(f, k) == Bit(g, k)
    ensures Shift(f, k) % 2 == Shift(g, k) % 2
  {
    ShiftParityIsBit(f, k);
    ShiftParityIsBit(g, k);
  }

  /** Two new business entities whose row numbers fall in different groups of
      six (below 6 * 2^31) get different names. */
  lemma SiteNamesDistinguishGroups(a: nat, b: nat)
    requires a < 6 * (INT_MAX + 1) && b < 6 * (INT_MAX + 1)
    requires a / 6 != b / 6
    ensures SiteName(a) != SiteName(b)
  {
    if SiteName(a) == SiteName(b) {
      assert NatToString(a / 6) == SiteName(a)[5..];
      assert NatToString(b / 6) == SiteName(b)[5..];
      NatToStringInjective(a / 6, b / 6);
    }
  }
}

=== FILE: wrappers.dfy ===
/** Java's Optional and the exceptions the generator throws become Option and
    Result values. */
module Wrappers {

  /** Java's Optional<T>: Some carries the value, None is Optional.empty(). */
  datatype Option<+T> = None | Some(value: T) {

    /** The value, or the given default when absent. */
    function GetOr(default: T): T {
      match this
      case Some(v) => v
      case None => default
    }
  }

  /** Either a computed value or the error the source would have thrown. */
  datatype Result<+R, +E> = Success(value: R) | Failure(error: E)
}

/** The failures the core raises. The Java code throws a handful of unchecked
    exceptions; each becomes one constructor here. */
module TpcdsErrors {

  datatype Error =
    /** checkState on a continuation row whose generator has no previous row. */
    | PreviousRowMissing
    /** getOnlyTableToGenerate on a session without a table filter. */
    | TableNotPresent
    /** InvalidOptionException raised for an unknown table name. */
    | InvalidOption(option: string, value: string)
    /** The output file exists and the session does not allow overwriting it. */
    | FileExists(path: string)
    /** values.get(0) on an empty row inside formatRow. */
    | RowIndexOutOfBounds
    /** requireNonNull on the child writer when a child row was produced. */
    | ChildWriterMissing
}
